=== FILE: README.md ===
# Retro Pong rules in Dafny

A model of the rule logic of a browser Pong game (`game.js`). It covers the game-state
machine (waiting, playing, paused, over), the keyboard handler, scoring and the win check,
the adaptive paddle sizes, the movement clamp for human and computer paddles, the ball's
motion, wall bounce, paddle reflection and trail, and the arithmetic of the adaptive music.

The game's module-level variables become one immutable `Rules.Game` record. Every event is a
pure function from one record to the next. The events are a key press, a key release, an
animation frame and a music timer tick (`Machine.Step`). Positions and velocities are exact
`real`s. Scores and paddle heights are integers. The canvas size is a parameter (`Config.Court`),
and the invariants assume a canvas at least 150 pixels tall.

Everything the rules read from outside arrives in an `Rules.Env` record:
- the audio clock `now`;
- the ball's speed, which is the square root of `dx*dx + dy*dy`, typed non-negative;
- three `Math.random()` draws: the serve's side, the serve's spin and the computer's aiming error.

Modules, one per part of the program: `Numbers` and `Options` (helpers, including JavaScript's
`%`), `Config` (constants, canvas), `Paddles`, `Balls`, `Ai`, `Music`, `Rules` (game record, frame,
scoring, resets), `Input` (key handler), `Machine` (events and the global invariant).

Two behaviours of the code are modelled as written and stated as lemmas:
- The winner's paddle is re-centred at `y - 5` for the nominal 10-pixel growth, whether or not it
  grew. A paddle already at the 150 cap therefore drifts up 5 pixels per point won
  (`Paddles.GrowRaisesByFive`, `Paddles.GrowKeepsCentre`).
- Space after a finished match resets and resumes play. The reset stops the music and nothing
  restarts it, so the new match plays silently until it is paused and resumed
  (`Input.SpaceTransitions`).

## Model

| member | source | states |
|---|---|---|
| Numbers.JsRem | game.js:229 | JavaScript's integer `%` truncates the quotient toward zero: the remainder completes the division `a == n * trunc(a / n) + r`, has the sign of the dividend and magnitude below the divisor, so a non-negative beat gives an index in [0, n) |
| Numbers.FmodOfNonNegative | game.js:261 | JavaScript's `%` on a non-negative number lies in [0, n), so the arpeggio index is 0..3 |
| Paddles.ClampY | game.js:505 | the clamp `max(0, min(H - h, y))` lands in [0, H - h] when the paddle fits, and leaves a position already inside untouched |
| Paddles.ClampIsNearest | game.js:515 | the clamped position is the point of [0, H - h] nearest to the requested one |
| Paddles.Move | game.js:514-515 | a paddle step records dy, keeps x and height, and ends inside the canvas whatever dy was |
| Paddles.Shrink | game.js:618-621 | the loser's height becomes max(30, h - 10); a paddle of height at least 30 already on the canvas stays where it is and stays on it |
| Paddles.Grow | game.js:624-628 | the winner's height becomes min(150, h + 10), and the winner ends on the canvas when it fits |
| Paddles.GrowRaisesByFive | game.js:627-628 | the winner's new y is always the clamp of y - 5, whether or not it grew |
| Paddles.GrowKeepsCentre | game.js:626-628 | unclamped, the winner keeps its centre exactly when it grew by the full 10 pixels |
| Paddles.AdjustPaddlesSound | game.js:615-643 | loser gets max(30, h - 10) and winner min(150, h + 10); both paddles stay on a canvas at least 150 tall; heights stay in [30, 150] and multiples of 10 |
| Paddles.AdjustPaddles | game.js:615-643 | a point shrinks only the loser and grows only the winner, no paddle moves sideways or changes its velocity, and a loser of height at least 30 on the canvas keeps its y |
| Paddles.HeightsStayInRange | game.js:615-643 | from heights in [30, 150], any sequence of points keeps both heights in [30, 150] and both paddles on the canvas |
| Balls.PushTrail | game.js:411-414 | recording a position appends it and keeps the last ten |
| Balls.TrailKeepsLastTen | game.js:411-414 | after any number of recorded positions the trail is exactly the last ten, never longer |
| Balls.WallBounce | game.js:564-568 | vertical velocity is reversed exactly when the ball's edge touches the top or bottom; its magnitude is kept |
| Balls.HitLeft | game.js:531-540 | dx changes only when the ball overlaps the left paddle while moving left; it then points right with magnitude 1.05 times the old one |
| Balls.HitRight | game.js:545-554 | dx changes only when the ball overlaps the right paddle while moving right; it then points left with magnitude 1.05 times the old one |
| Balls.DeflectBounds | game.js:538-540 | after a hit the ball goes up above the paddle's centre and down below it, at most 7 pixels a frame on a paddle at least 30 tall |
| Balls.ResetBall | game.js:593-599 | a serve starts at the centre with an empty trail, horizontal speed 4 toward the side the coin draw picks, vertical speed at most 2 |
| Ai.Settings | game.js:285-307 | each preset has speed in (0, 1), a positive aiming error and a positive reaction delay |
| Ai.HarderIsStronger | game.js:285-307 | a harder preset is faster, aims better and reacts sooner |
| Ai.Aim | game.js:479-490 | the aim is the ball's y when it moves away, else the straight-line prediction at the paddle scaled by the preset's speed; the random error shifts it by at most half the preset's error, and a centred draw adds none |
| Ai.AiVelocity | game.js:493-502 | no move inside the 5-pixel dead zone; otherwise a step toward the aim of at most 5 times the preset's speed, never past the aim |
| Ai.UpdateAi | game.js:470-506 | the paddle is untouched until the reaction timer reaches the delay; then the timer restarts, and a paddle on the canvas moves at most 5 times the preset's speed and stays on the canvas |
| Ai.AiNeverOvershoots | game.js:493-505 | after an unclamped move the paddle's centre lies strictly between its old centre and its aim, or stays put in the dead zone |
| Music.Intensity | game.js:206-222 | intensity is at most 1, and at least 0.1 for any non-negative ball speed |
| Music.TempoBounds | game.js:222-225 | the tempo `120 + 80 * intensity` lies in [128, 200] |
| Music.IntensityMonotone | game.js:208-220 | intensity ignores which side leads, grows with ball speed, and, for a fixed leading score, grows as the trailing score falls further behind |
| Music.GapAloneIsNotMonotone | game.js:208-220 | the gap alone does not order intensities: a 1-0 score is calmer than 4-4, because the leading score counts too |
| Music.CurrentBeat | game.js:202-203 | at a non-negative tempo the beat number is non-negative once the clock is at or past the start time |
| Music.LookupsInRange | game.js:228-249 | JavaScript array reads are modelled as defined exactly inside the array; at a non-negative beat and clock the bass and arpeggio reads hit their arrays and the lead rests exactly on the pattern's zeros |
| Music.NegativeBeatMissesPattern | game.js:228-229 | a negative beat that is not a multiple of 8 would read outside the bass pattern |
| Music.PatternRepeats | game.js:228-256 | on non-negative beats the bass, drum and lead patterns repeat every 8 beats |
| Music.VoicesLayered | game.js:233-264 | the arpeggio only plays over the lead, and the lead and drums only above intensity 0.4 |
| Music.VoicesAt | game.js:227-264 | the bass plays a pattern note on every non-negative beat, at gain 0.3 times intensity; above 0.4 the drums play a kick when the beat is 0 mod 4 and a snare when it is 2 mod 4, and never on odd beats or at or below 0.4; the lead plays exactly above 0.6, a pattern note at gain 0.15 times intensity or a rest; the arpeggio plays exactly above 0.8, at gain 0.1 times intensity, and any note it plays is a pattern note |
| Music.MusicUpdate | game.js:198-225 | a stopped update changes nothing; a running one keeps the start time and sets a tempo in [128, 200]; when the clock is past the start the bass and arpeggio reads are defined |
| Music.MusicStart | game.js:174-184 | starting leaves the music playing; it is a no-op when already playing, otherwise records the start time and sets a tempo in [128, 200] |
| Music.StopThenStart | game.js:174-196 | stopping then starting restarts the music at the current clock, with the tempo the score and ball speed call for |
| Rules.Initial | game.js:309-343 | at page load the match waits against the medium computer, scores are 0, both paddles are 80 tall and centred on the canvas, the ball is centred with no trail and no key is held |
| Rules.ResetGame | game.js:645-662 | a reset zeroes both scores, puts both paddles back at height 80 centred on the canvas, serves a new ball from the centre as `Balls.ResetBall` does, stops the music and keeps phase, mode and difficulty |
| Rules.CheckWin | game.js:601-613 | the match is over exactly when some score is at least 5, which stops the music; otherwise nothing changes |
| Rules.PointScored | game.js:572-580 | a point raises only the scorer's score, shrinks the loser, grows the winner, re-centres the ball and ends the match exactly at 5 |
| Rules.UpdatePaddles | game.js:508-528 | only the paddles' y and dy and the reaction timer change; both paddles end on the canvas; W moves the left paddle up 5 pixels and S, without W, down 5 when there is room, and it stays put with neither; in two-player mode ArrowUp and ArrowDown move the right paddle the same way, and it stays put with neither |
| Rules.MovedBall | game.js:560-570 | the frame's motion keeps the trail, moves the ball by its velocity, keeps the vertical speed unless a paddle hit, and changes dx only by a 1.05 speed-up off a paddle |
| Rules.UpdateBall | game.js:560-591 | scores never fall and rise by at most one a frame; without a point only the ball changes; the phase stays or becomes over; mode, difficulty, held keys and reaction timer are kept |
| Rules.BallLeavingCourt | game.js:572-590 | past the left edge only the right score rises, the left paddle shrinks and the ball is re-centred; the right edge mirrors it; otherwise no point |
| Rules.Frame | game.js:685-701 | outside play only the trail changes, and it becomes the last ten of the old trail plus the ball's position; during play the ball moves by its velocity when nobody scores, with the trail extended the same way, and a ball passing the left edge scores for the right player and one passing the right edge for the left |
| Input.KeyDown | game.js:703-772 | a key press marks the key held and flips the mode exactly when it is P |
| Input.PressThenRelease | game.js:703-776 | pressing then releasing a key that was not held leaves the held set as it was; a held key stays held until its own release |
| Input.SpaceTransitions | game.js:707-728 | Space moves waiting to playing, playing to paused, paused to playing, over to playing with scores 0 and heights 80 |
| Input.DifficultyKeys | game.js:731-749 | keys 1, 2 and 3 select easy, medium and hard exactly when the computer plays and the match waits; nothing else changes |
| Input.ToggleAiKey | game.js:751-756 | P flips the mode, resets scores, heights and music, and leaves the match waiting |
| Input.OtherKeys | game.js:703-705 | any other key is only recorded as held |
| Input.PressSpace | game.js:707-728 | Space pauses play and otherwise starts play; the music plays after starting from waiting or paused, stops when pausing, and stays off after restarting a finished match, which resets the scores |
| Input.ChooseDifficulty | game.js:731-749 | only the difficulty may change, and only to the preset the number key names, when the computer plays and the match waits |
| Input.ToggleAi | game.js:751-756 | the mode flips and the match waits from a reset: scores 0, heights 80, music off; difficulty and held keys are kept |
| Machine.InitialInv | game.js:309-343 | the state at page load satisfies the invariant |
| Machine.ResetGameInv | game.js:645-662 | a reset leaves valid paddles, an empty trail and the tempo in range |
| Machine.KeyDownInv | game.js:703-772 | every key press keeps the invariant |
| Machine.UpdatePaddlesInv | game.js:508-528 | paddle movement keeps the invariant |
| Machine.PointScoredInv | game.js:572-603 | a point during play keeps the invariant: scores stay at most 5 and the match is over exactly at 5 |
| Machine.UpdateBallInv | game.js:560-591 | the ball's frame keeps the invariant |
| Machine.FrameInv | game.js:685-701 | every animation frame keeps the invariant |
| Machine.StepInv | game.js:685-776 | every event keeps the invariant |
| Machine.RunInv | game.js:778-782 | after any sequence of events the invariant still holds |
| Machine.Step | game.js:685-776 | a release only forgets the key; a music tick changes only the music and never starts or stops it; a frame keeps keys, mode and difficulty; only P changes the mode and only a press while waiting changes the difficulty |
| Machine.KeyDownPhases | game.js:703-772 | a key press never ends a match, returns to waiting only on P, pauses only from play, and resumes only on Space |
| Machine.FramePhases | game.js:685-693 | a frame changes the phase only by ending a match in play |
| Machine.StepPhaseEdges | game.js:685-776 | the match ends only in a frame during play, returns to waiting only on P, and every other phase change is Space's |
| Machine.ScoresOnlyRise | game.js:572-590 | scores never fall and rise by at most one point per event, except when a reset sets both to 0 |

## Left out

- Web Audio: the sound-effect patches, the oscillator and gain node set-up, and the scheduling of frequency and gain changes. These are calls into the browser; an update only yields the notes and gains it would set (`Music.Voices`).
- Canvas drawing: paddles, net, background, difficulty label, and the drawing half of the trail.
- DOM updates: score text, overlay messages, player labels and the winner message.
- The particle system: its random velocities and floating-point decay have no rule beyond being discarded once spent.
- Timers and event wiring: `requestAnimationFrame`, the music's 50 ms `setTimeout`, and the listeners. These become the events of `Machine.Step`.
- `Math.random()` and `Math.sqrt()`: the draws and the ball's speed are inputs in `Rules.Env`, not computed.
- Floating point: positions, velocities and intensity are exact reals. Rounding of the 1.05 speed-up and of the 0.1 steps is not modelled.
- Music.MusicUpdate: an out-of-range pattern read is modelled as `None`. What happens after it in the browser (the audio call would reject `undefined` and the update loop would stop) is not modelled. `Music.CurrentBeat` and `Music.LookupsInRange` show that such a read cannot happen while the audio clock is at or past the start time.
- Music.CurrentBeat: computes `floor((now - start) * tempo / 60)`, which in exact arithmetic is the code's `floor((now - start) / (60 / tempo))` for every tempo, including 0.
- Canvases shorter than 150 pixels: the invariants assume at least 150. The canvas size comes from the page, and a shorter canvas could not hold a full-height paddle.

=== FILE: ai.dfy ===
/** The computer opponent: three difficulty presets and the right paddle's tracking step,
    with its reaction delay, its aim (the ball's predicted height plus a random error) and
    its speed-limited move toward that aim. */
module Ai {
  import opened Numbers
  import opened Config
  import opened Paddles
  import opened Balls

  datatype Difficulty = Easy | Medium | Hard

  /** `speed` scales the paddle speed and the prediction, `error` is the width of the random
      aiming error in pixels, `reactionDelay` the number of frames between re-evaluations. */
  datatype AiSettings = AiSettings(speed: real, error: real, reactionDelay: nat)

  function Settings(d: Difficulty): (s: AiSettings)
    ensures 0.0 < s.speed < 1.0 && 0.0 < s.error && 0 < s.reactionDelay
  {
    match d
    case Easy => AiSettings(0.5, 30.0, 15)
    case Medium => AiSettings(0.75, 15.0, 8)
    case Hard => AiSettings(0.95, 5.0, 2)
  }

  /** A harder preset is faster, aims better and reacts sooner. */
  lemma HarderIsStronger()
    ensures Settings(Easy).speed < Settings(Medium).speed < Settings(Hard).speed
    ensures Settings(Easy).error > Settings(Medium).error > Settings(Hard).error
    ensures Settings(Easy).reactionDelay > Settings(Medium).reactionDelay > Settings(Hard).reactionDelay
  {
  }

  /** Where the computer aims its paddle's centre: when the ball comes toward it, the height the
      ball would reach at the paddle, damped by `speed`; otherwise the ball's current height;
      plus an error `(jitter - 0.5) * error` from a uniform draw `jitter` in [0, 1). */
  function Aim(b: Ball, paddle: Paddle, s: AiSettings, jitter: real): (r: real)
    ensures 0.0 <= jitter <= 1.0 && 0.0 <= s.error && b.dx <= 0.0 ==> Abs(r - b.y) <= s.error / 2.0
    ensures 0.0 <= jitter <= 1.0 && 0.0 <= s.error && b.dx > 0.0 ==>
      Abs(r - (b.y + b.dy * ((paddle.x - b.x) / b.dx) * s.speed)) <= s.error / 2.0
    ensures b.dx > 0.0 && b.dy == 0.0 && jitter == 0.5 ==> r == b.y
    ensures b.dx <= 0.0 && jitter == 0.5 ==> r == b.y
    ensures b.dx > 0.0 && jitter == 0.5 ==> r == b.y + b.dy * ((paddle.x - b.x) / b.dx) * s.speed
  {
    var predicted :=
      if b.dx > 0.0 then b.y + b.dy * ((paddle.x - b.x) / b.dx) * s.speed
      else b.y;
    var noise := (jitter - 0.5) * s.error;
    assert 0.0 <= jitter <= 1.0 && 0.0 <= s.error ==> Abs(noise) <= s.error / 2.0 by {
      if 0.0 <= jitter <= 1.0 && 0.0 <= s.error {
        NoiseBound(jitter, s.error);
      }
    }
    predicted + noise
  }

  /** A draw in [0, 1] shifts the aim by at most half the preset's error. */
  lemma NoiseBound(jitter: real, error: real)
    requires 0.0 <= jitter <= 1.0 && 0.0 <= error
    ensures Abs((jitter - 0.5) * error) <= error / 2.0
  {
    if jitter >= 0.5 {
      assert (jitter - 0.5) * error <= 0.5 * error;
    } else {
      assert (0.5 - jitter) * error <= 0.5 * error;
    }
  }

  /** The paddle's vertical step toward an aim `diff` pixels below its centre: nothing inside a
      5-pixel dead zone, otherwise a tenth of the distance, at most `5 * speed`. */
  function AiVelocity(diff: real, s: AiSettings): (r: real)
    ensures Abs(diff) <= 5.0 ==> r == 0.0
    ensures 0.0 <= s.speed ==> Abs(r) <= PaddleSpeed * s.speed
    ensures 0.0 < s.speed && diff > 5.0 ==> 0.0 < r < diff
    ensures 0.0 < s.speed && diff < -5.0 ==> diff < r < 0.0
  {
    if Abs(diff) > 5.0 then
      if diff > 0.0 then Min(PaddleSpeed * s.speed, Abs(diff) * 0.1)
      else -Min(PaddleSpeed * s.speed, Abs(diff) * 0.1)
    else 0.0
  }

  /** One frame of the computer's paddle, returning the new reaction timer and paddle. The
      timer counts frames; until it reaches the preset's delay the paddle does not move at all,
      and when it does the timer restarts and the paddle steps toward its aim and is clamped. */
  function UpdateAi(c: Court, timer: nat, s: AiSettings, paddle: Paddle, b: Ball, jitter: real): (r: (nat, Paddle))
    ensures timer + 1 < s.reactionDelay ==> r == (timer + 1, paddle)
    ensures timer + 1 >= s.reactionDelay ==> r.0 == 0
    ensures 0 < s.reactionDelay ==> r.0 < s.reactionDelay
    ensures r.1.x == paddle.x && r.1.height == paddle.height
    ensures paddle.height <= c.height && InCourt(c, paddle) ==> InCourt(c, r.1)
    ensures 0.0 <= s.speed && timer + 1 >= s.reactionDelay ==> Abs(r.1.dy) <= PaddleSpeed * s.speed
    ensures 0.0 <= s.speed && InCourt(c, paddle) ==> Abs(r.1.y - paddle.y) <= PaddleSpeed * s.speed
  {
    var t := timer + 1;
    if t < s.reactionDelay then (t, paddle)
    else
      var centre := paddle.y + (paddle.height as real) / 2.0;
      var diff := Aim(b, paddle, s, jitter) - centre;
      (0, Move(c, paddle, AiVelocity(diff, s)))
  }

  /** The computer never overshoots: after a move that the clamp leaves alone, the paddle's
      centre lies strictly between where it was and where it aimed (or stays put in the dead zone). */
  lemma AiNeverOvershoots(c: Court, timer: nat, s: AiSettings, paddle: Paddle, b: Ball, jitter: real)
    requires 0.0 < s.speed && timer + 1 >= s.reactionDelay
    requires var dy := AiVelocity(Aim(b, paddle, s, jitter) - (paddle.y + (paddle.height as real) / 2.0), s);
      0.0 <= paddle.y + dy <= MaxY(c, paddle.height)
    ensures var centre := paddle.y + (paddle.height as real) / 2.0;
      var aim := Aim(b, paddle, s, jitter);
      var centre' := UpdateAi(c, timer, s, paddle, b, jitter).1.y + (paddle.height as real) / 2.0;
      && (Abs(aim - centre) <= 5.0 ==> centre' == centre)
      && (aim - centre > 5.0 ==> centre < centre' < aim)
      && (aim - centre < -5.0 ==> aim < centre' < centre)
  {
  }
}

=== FILE: balls.dfy ===
/** The ball: its motion, the bounce off the top and bottom walls, the reflection off a
    paddle, the serve from the centre, and the trail of its last ten positions. */
module Balls {
  import opened Numbers
  import opened Config
  import opened Paddles

  datatype Point = Point(x: real, y: real)

  /** The ball's centre `(x, y)`, its velocity `(dx, dy)` per frame and its trail, oldest first. */
  datatype Ball = Ball(x: real, y: real, dx: real, dy: real, trail: seq<Point>)

  /** The last `TrailLength` elements of `s` (all of it when it is shorter). */
  function Window(s: seq<Point>): (r: seq<Point>)
    ensures |r| == MinInt(|s|, TrailLength)
  {
    s[|s| - MinInt(|s|, TrailLength)..]
  }

  /** Records one position: append it and, once the trail is over ten long, drop the oldest. */
  function PushTrail(trail: seq<Point>, p: Point): (r: seq<Point>)
    ensures |trail| <= TrailLength ==> r == Window(trail + [p])
    ensures |r| > 0 && r[|r| - 1] == p
  {
    var t := trail + [p];
    if |t| > TrailLength then t[1..] else t
  }

  /** The trail after recording each of `points` in order. */
  function PushAll(trail: seq<Point>, points: seq<Point>): seq<Point>
    decreases |points|
  {
    if points == [] then trail else PushAll(PushTrail(trail, points[0]), points[1..])
  }

  /** Windowing twice loses nothing: the last ten of (the last ten of s) followed by u are the
      last ten of s followed by u. */
  lemma WindowOfWindow(s: seq<Point>, u: seq<Point>)
    ensures Window(Window(s) + u) == Window(s + u)
  {
    var k := |s| - MinInt(|s|, TrailLength);
    assert Window(s) + u == (s + u)[k..];
    var t := (s + u)[k..];
    var j := |t| - MinInt(|t|, TrailLength);
    assert t[j..] == (s + u)[k + j..];
  }

  /** The trail is a bounded first-in-first-out buffer: however many positions are recorded,
      it holds exactly the last ten of them (after whatever it held before). */
  lemma {:induction false} TrailKeepsLastTen(trail: seq<Point>, points: seq<Point>)
    requires |trail| <= TrailLength
    ensures PushAll(trail, points) == Window(trail + points)
    ensures |PushAll(trail, points)| <= TrailLength
    decreases |points|
  {
    if points == [] {
      assert trail + points == trail;
    } else {
      var t1 := PushTrail(trail, points[0]);
      TrailKeepsLastTen(t1, points[1..]);
      PushThenWindow(trail, points);
    }
  }

  /** Recording the first position and then keeping the last ten of it and the rest is keeping
      the last ten of everything. */
  lemma PushThenWindow(trail: seq<Point>, points: seq<Point>)
    requires |trail| <= TrailLength && points != []
    ensures Window(PushTrail(trail, points[0]) + points[1..]) == Window(trail + points)
  {
    WindowOfWindow(trail + [points[0]], points[1..]);
    assert trail + [points[0]] + points[1..] == trail + points;
  }

  /** The ball's centre moves by its velocity. */
  function Advance(b: Ball): Ball
  {
    b.(x := b.x + b.dx, y := b.y + b.dy)
  }

  /** The ball's edge touches the top or the bottom of the canvas. */
  predicate AtWall(c: Court, b: Ball)
  {
    b.y - BallSize / 2.0 <= 0.0 || b.y + BallSize / 2.0 >= c.height as real
  }

  /** At a wall the vertical velocity is reversed; nothing else changes. */
  function WallBounce(c: Court, b: Ball): (r: Ball)
    ensures r.x == b.x && r.y == b.y && r.dx == b.dx && r.trail == b.trail
    ensures Abs(r.dy) == Abs(b.dy)
    ensures b.dy != 0.0 ==> (r.dy != b.dy <==> AtWall(c, b))
  {
    if AtWall(c, b) then b.(dy := -b.dy) else b
  }

  /** The ball's square overlaps the paddle's rectangle. */
  predicate Touches(b: Ball, p: Paddle)
  {
    && b.x - BallSize / 2.0 <= p.x + PaddleWidth
    && b.x + BallSize / 2.0 >= p.x
    && b.y + BallSize / 2.0 >= p.y
    && b.y - BallSize / 2.0 <= p.y + p.height as real
  }

  /** Vertical velocity after a paddle hit: 5 times the offset of the ball from the paddle's
      centre, in units of half the paddle's height. */
  function DeflectDy(b: Ball, p: Paddle): real
  {
    var half := (p.height as real) / 2.0;
    -(((p.y + half) - b.y) / half) * 5.0
  }

  /** A hit sends the ball up when it strikes above the paddle's centre and down below it,
      and on a paddle at least 30 tall never faster than 7 pixels a frame vertically. */
  lemma DeflectBounds(b: Ball, p: Paddle)
    requires Touches(b, p)
    requires PaddleMinHeight <= p.height
    ensures Abs(DeflectDy(b, p)) <= 7.0
    ensures b.y < p.y + (p.height as real) / 2.0 ==> DeflectDy(b, p) < 0.0
    ensures b.y > p.y + (p.height as real) / 2.0 ==> DeflectDy(b, p) > 0.0
  {
    var h := p.height as real;
    var rel := (p.y + h / 2.0) - b.y;
    var d := DeflectDy(b, p);
    assert d * h == -10.0 * rel;
    assert -h / 2.0 - 6.0 <= rel <= h / 2.0 + 6.0;
    assert Abs(d) * h <= 7.0 * h;
  }

  /** The reflection off the left paddle. */
  function HitLeft(b: Ball, p: Paddle): (r: Ball)
    ensures r.x == b.x && r.y == b.y && r.trail == b.trail
    ensures r.dx != b.dx <==> Touches(b, p) && b.dx < 0.0
    ensures r.dx != b.dx ==> r.dx > 0.0 && r.dx == 1.05 * Abs(b.dx) && r.dy == DeflectDy(b, p)
    ensures r.dx == b.dx ==> r == b
  {
    if Touches(b, p) && b.dx < 0.0 then
      b.(dx := Abs(b.dx) * 1.05, dy := DeflectDy(b, p))
    else
      b
  }

  /** The reflection off the right paddle. */
  function HitRight(b: Ball, p: Paddle): (r: Ball)
    ensures r.x == b.x && r.y == b.y && r.trail == b.trail
    ensures r.dx != b.dx <==> Touches(b, p) && b.dx > 0.0
    ensures r.dx != b.dx ==> r.dx < 0.0 && -r.dx == 1.05 * Abs(b.dx) && r.dy == DeflectDy(b, p)
    ensures r.dx == b.dx ==> r == b
  {
    if Touches(b, p) && b.dx > 0.0 then
      b.(dx := -Abs(b.dx) * 1.05, dy := DeflectDy(b, p))
    else
      b
  }

  /** A serve from the centre: direction from the coin draw, vertical speed from the spin
      draw (both uniform in [0, 1)), with an empty trail. */
  function ResetBall(c: Court, coin: real, spin: real): (r: Ball)
    ensures r.trail == []
    ensures r.x == (c.width as real) / 2.0 && r.y == (c.height as real) / 2.0
    ensures Abs(r.dx) == BallSpeedInitial
    ensures r.dx > 0.0 <==> coin > 0.5
    ensures 0.0 <= spin <= 1.0 ==> Abs(r.dy) <= BallSpeedInitial / 2.0
  {
    Ball((c.width as real) / 2.0, (c.height as real) / 2.0,
         (if coin > 0.5 then 1.0 else -1.0) * BallSpeedInitial,
         (spin - 0.5) * BallSpeedInitial,
         [])
  }
}

=== FILE: config.dfy ===
/** The game's fixed constants and the playing field. Lengths are canvas pixels; the
    vertical axis grows downward, so y = 0 is the top edge. */
module Config {

  const PaddleHeightInitial: int := 80
  const PaddleWidth: real := 15.0
  /** Pixels a paddle shrinks or grows after each point. */
  const PaddleSizeChange: int := 10
  const PaddleMinHeight: int := 30
  const PaddleMaxHeight: int := 150
  const BallSize: real := 12.0
  const PaddleSpeed: real := 5.0
  const BallSpeedInitial: real := 4.0
  const WinningScore: nat := 5
  /** Number of recent ball positions the trail keeps. */
  const TrailLength: nat := 10
  /** Horizontal distance of each paddle from its side wall. */
  const PaddleInset: real := 30.0

  /** The canvas, whose size the page decides. */
  datatype Court = Court(width: nat, height: nat)

  /** A court tall enough for the largest paddle. */
  predicate ValidCourt(c: Court)
  {
    c.height >= PaddleMaxHeight
  }

  const LeftPaddleX: real := PaddleInset

  function RightPaddleX(c: Court): real
  {
    c.width as real - PaddleInset - PaddleWidth
  }
}

=== FILE: input.dfy ===
/** The keyboard handler: Space starts, pauses, resumes or restarts; 1/2/3 pick the computer's
    difficulty while waiting; P switches between one- and two-player mode and starts over. */
module Input {
  import opened Options
  import opened Config
  import opened Ai
  import opened Music
  import opened Rules

  /** A key event as the browser reports it: the key's value, its physical code and its legacy
      numeric code. */
  datatype KeyEvent = KeyEvent(key: string, code: string, keyCode: int)

  predicate IsSpace(e: KeyEvent)
  {
    e.key == " " || e.code == "Space" || e.keyCode == 32
  }

  predicate IsToggleAi(e: KeyEvent)
  {
    e.key == "p" || e.key == "P" || e.code == "KeyP"
  }

  /** The preset a number key selects, if any. */
  function DifficultyKey(key: string): Option<Difficulty>
  {
    if key == "1" then Some(Easy)
    else if key == "2" then Some(Medium)
    else if key == "3" then Some(Hard)
    else None
  }

  /** Space: waiting or paused starts the music and plays, playing pauses and stops the music,
      and a finished match is reset and played at once. */
  function PressSpace(c: Court, g: Game, env: Env): (r: Game)
    ensures r.phase == (if g.phase == Playing then Paused else Playing)
    ensures r.music.playing <==> g.phase == Waiting || g.phase == Paused
    ensures g.phase != Over ==> r == g.(phase := r.phase, music := r.music)
    ensures g.phase == Over ==> r.scoreLeft == 0 && r.scoreRight == 0 && r.ball.trail == []
    ensures r.aiEnabled == g.aiEnabled && r.difficulty == g.difficulty && r.held == g.held
  {
    match g.phase
    case Waiting => g.(phase := Playing, music := MusicStart(g.music, env.now, g.scoreLeft, g.scoreRight, env.speed))
    case Playing => g.(phase := Paused, music := MusicStop(g.music))
    case Paused => g.(phase := Playing, music := MusicStart(g.music, env.now, g.scoreLeft, g.scoreRight, env.speed))
    case Over => ResetGame(c, g, env).(phase := Playing)
  }

  /** Number keys change the preset, but only against the computer and before the match starts. */
  function ChooseDifficulty(g: Game, key: string): (r: Game)
    ensures r == g.(difficulty := r.difficulty)
    ensures r.difficulty != g.difficulty ==> g.aiEnabled && g.phase == Waiting && DifficultyKey(key) == Some(r.difficulty)
    ensures g.aiEnabled && g.phase == Waiting && key == "1" ==> r.difficulty == Easy
    ensures g.aiEnabled && g.phase == Waiting && key == "2" ==> r.difficulty == Medium
    ensures g.aiEnabled && g.phase == Waiting && key == "3" ==> r.difficulty == Hard
  {
    if g.aiEnabled && g.phase == Waiting then
      match DifficultyKey(key)
      case Some(d) => g.(difficulty := d)
      case None => g
    else g
  }

  /** P: switch mode, reset the match and wait for Space. */
  function ToggleAi(c: Court, g: Game, env: Env): (r: Game)
    ensures r.aiEnabled == !g.aiEnabled && r.phase == Waiting
    ensures r.scoreLeft == 0 && r.scoreRight == 0 && !r.music.playing
    ensures r.left.height == PaddleHeightInitial && r.right.height == PaddleHeightInitial
    ensures r.difficulty == g.difficulty && r.held == g.held
  {
    ResetGame(c, g.(aiEnabled := !g.aiEnabled), env).(phase := Waiting)
  }

  /** The key-down handler: mark the key held, then apply the Space, number-key and P rules in
      that order, each seeing the state the previous one left. */
  function KeyDown(c: Court, g: Game, e: KeyEvent, env: Env): (r: Game)
    ensures r.aiEnabled == (g.aiEnabled != IsToggleAi(e))
    ensures e.key in r.held && r.held == g.held + {e.key}
  {
    var g1 := g.(held := g.held + {e.key});
    var g2 := if IsSpace(e) then PressSpace(c, g1, env) else g1;
    var g3 := ChooseDifficulty(g2, e.key);
    if IsToggleAi(e) then ToggleAi(c, g3, env) else g3
  }

  /** Releasing a key only forgets that it is held. */
  function KeyUp(g: Game, key: string): Game
  {
    g.(held := g.held - {key})
  }

  /** Pressing and releasing a key that was not held leaves the held keys as they were, and a
      key that is held stays held until it is released. */
  lemma PressThenRelease(c: Court, g: Game, e: KeyEvent, env: Env, other: string)
    ensures e.key !in g.held ==> KeyUp(KeyDown(c, g, e, env), e.key).held == g.held
    ensures other in g.held ==> other in KeyDown(c, g, e, env).held
    ensures other in g.held && other != e.key ==> other in KeyUp(g, e.key).held
  {
  }

  /** Space alone moves waiting and paused to playing, playing to paused, and a finished match
      to playing with both scores 0 and both paddles back at height 80; no other phase results.
      A restarted match plays without music: the reset stops it and nothing starts it again. */
  lemma SpaceTransitions(c: Court, g: Game, e: KeyEvent, env: Env)
    requires IsSpace(e) && !IsToggleAi(e)
    ensures var r := KeyDown(c, g, e, env);
      && (g.phase == Waiting ==> r.phase == Playing && r.music.playing)
      && (g.phase == Playing ==> r.phase == Paused && !r.music.playing)
      && (g.phase == Paused ==> r.phase == Playing && r.music.playing)
      && (g.phase == Over ==> r.phase == Playing && r.scoreLeft == 0 && r.scoreRight == 0
                              && r.left.height == 80 && r.right.height == 80 && !r.music.playing)
      && (g.phase != Over ==> r.scoreLeft == g.scoreLeft && r.scoreRight == g.scoreRight
                              && r.left == g.left && r.right == g.right && r.ball == g.ball)
      && (r.phase == Playing || r.phase == Paused)
      && r.difficulty == g.difficulty
  {
  }

  /** A number key, when it is not also Space or P, changes the preset exactly when the computer
      plays and the match is waiting: 1 to easy, 2 to medium, 3 to hard. Nothing else changes but
      the held keys. */
  lemma DifficultyKeys(c: Court, g: Game, e: KeyEvent, env: Env, d: Difficulty)
    requires DifficultyKey(e.key) == Some(d) && !IsSpace(e) && !IsToggleAi(e)
    ensures d == (if e.key == "1" then Easy else if e.key == "2" then Medium else Hard)
    ensures KeyDown(c, g, e, env) ==
      g.(held := g.held + {e.key}, difficulty := if g.aiEnabled && g.phase == Waiting then d else g.difficulty)
  {
  }

  /** P always flips the mode, resets scores, heights and music, and leaves the match waiting. */
  lemma ToggleAiKey(c: Court, g: Game, e: KeyEvent, env: Env)
    requires IsToggleAi(e)
    ensures var r := KeyDown(c, g, e, env);
      && r.aiEnabled == !g.aiEnabled && r.phase == Waiting
      && r.scoreLeft == 0 && r.scoreRight == 0
      && r.left.height == 80 && r.right.height == 80
      && !r.music.playing
      && (DifficultyKey(e.key).None? ==> r.difficulty == g.difficulty)
  {
  }

  /** Any other key is only recorded as held. */
  lemma OtherKeys(c: Court, g: Game, e: KeyEvent, env: Env)
    requires !IsSpace(e) && !IsToggleAi(e) && DifficultyKey(e.key).None?
    ensures KeyDown(c, g, e, env) == g.(held := g.held + {e.key})
  {
  }
}

=== FILE: machine.dfy ===
/** The whole game as a state machine over four kinds of event, and the invariant every event
    preserves: paddles of height 30..150 (a multiple of 10) lying on the canvas, a trail of at
    most ten points, scores of at most 5 with the match over exactly when one side has 5,
    a fresh match while waiting, music only during play, and a tempo in [120, 200]. */
module Machine {
  import opened Config
  import opened Paddles
  import opened Music
  import opened Rules
  import opened Input

  /** A key pressed or released, an animation frame, or the music's 50 ms timer. */
  datatype Event = Press(e: KeyEvent) | Release(key: string) | AnimationFrame | MusicTick

  function Step(c: Court, g: Game, ev: Event, env: Env): (r: Game)
    ensures ev.Release? ==> r == g.(held := g.held - {ev.key})
    ensures ev.MusicTick? ==> r == g.(music := r.music) && r.music.playing == g.music.playing
    ensures ev.AnimationFrame? ==> r.held == g.held && r.aiEnabled == g.aiEnabled && r.difficulty == g.difficulty
    ensures r.aiEnabled != g.aiEnabled ==> ev.Press? && IsToggleAi(ev.e)
    ensures r.difficulty != g.difficulty ==> ev.Press? && g.phase == Waiting
  {
    match ev
    case Press(e) => KeyDown(c, g, e, env)
    case Release(k) => KeyUp(g, k)
    case AnimationFrame => Frame(c, g, env)
    case MusicTick => g.(music := MusicUpdate(g.music, env.now, g.scoreLeft, g.scoreRight, env.speed).0)
  }

  /** The state after a sequence of events, each with its outside readings. */
  function Run(c: Court, g: Game, events: seq<(Event, Env)>): Game
    decreases |events|
  {
    if events == [] then g else Run(c, Step(c, g, events[0].0, events[0].1), events[1..])
  }

  predicate PaddleOk(c: Court, p: Paddle)
  {
    HeightInRange(p.height) && p.height % PaddleSizeChange == 0 && InCourt(c, p)
  }

  predicate Inv(c: Court, g: Game)
  {
    && PaddleOk(c, g.left) && PaddleOk(c, g.right)
    && g.left.x == LeftPaddleX && g.right.x == RightPaddleX(c)
    && |g.ball.trail| <= TrailLength
    && g.scoreLeft <= WinningScore && g.scoreRight <= WinningScore
    && !(g.scoreLeft == WinningScore && g.scoreRight == WinningScore)
    && (g.phase == Over <==> g.scoreLeft == WinningScore || g.scoreRight == WinningScore)
    && (g.phase == Waiting ==>
          g.scoreLeft == 0 && g.scoreRight == 0
          && g.left.height == PaddleHeightInitial && g.right.height == PaddleHeightInitial)
    && (g.music.playing ==> g.phase == Playing)
    && 120.0 <= g.music.tempo <= 200.0
  }

  lemma InitialInv(c: Court)
    requires ValidCourt(c)
    ensures Inv(c, Initial(c))
  {
  }

  lemma ResetGameInv(c: Court, g: Game, env: Env)
    requires ValidCourt(c) && Inv(c, g)
    ensures var r := ResetGame(c, g, env);
      PaddleOk(c, r.left) && PaddleOk(c, r.right) && r.left.x == LeftPaddleX && r.right.x == RightPaddleX(c)
      && r.ball.trail == [] && 120.0 <= r.music.tempo <= 200.0
  {
  }

  lemma KeyDownInv(c: Court, g: Game, e: KeyEvent, env: Env)
    requires ValidCourt(c) && Inv(c, g)
    ensures Inv(c, KeyDown(c, g, e, env))
  {
  }

  lemma UpdatePaddlesInv(c: Court, g: Game, env: Env)
    requires ValidCourt(c) && Inv(c, g)
    ensures Inv(c, UpdatePaddles(c, g, env))
  {
  }

  /** A point during play keeps the invariant: the scorer had at most 4, so it has at most 5,
      and the match is over exactly when it reached 5. */
  lemma PointScoredInv(c: Court, g: Game, loser: Side, env: Env)
    requires ValidCourt(c) && Inv(c, g) && g.phase == Playing
    ensures var r := PointScored(c, g, loser, env);
      Inv(c, r) && r.ball.x == (c.width as real) / 2.0
  {
  }

  lemma UpdateBallInv(c: Court, g: Game, env: Env)
    requires ValidCourt(c) && Inv(c, g) && g.phase == Playing
    ensures Inv(c, UpdateBall(c, g, env))
  {
    var g1 := g.(ball := MovedBall(c, g));
    assert Inv(c, g1);
    if g1.ball.x < 0.0 {
      PointScoredInv(c, g1, Left, env);
    } else if g1.ball.x > c.width as real {
      PointScoredInv(c, g1, Right, env);
    }
  }

  lemma FrameInv(c: Court, g: Game, env: Env)
    requires ValidCourt(c) && Inv(c, g)
    ensures Inv(c, Frame(c, g, env))
  {
    if g.phase == Playing {
      UpdatePaddlesInv(c, g, env);
      UpdateBallInv(c, UpdatePaddles(c, g, env), env);
    }
  }

  /** Every event keeps the invariant. */
  lemma StepInv(c: Court, g: Game, ev: Event, env: Env)
    requires ValidCourt(c) && Inv(c, g)
    ensures Inv(c, Step(c, g, ev, env))
  {
    match ev
    case Press(e) => KeyDownInv(c, g, e, env);
    case Release(k) =>
    case AnimationFrame => FrameInv(c, g, env);
    case MusicTick =>
  }

  /** From the page load on, the invariant holds after any sequence of events. */
  lemma {:induction false} RunInv(c: Court, g: Game, events: seq<(Event, Env)>)
    requires ValidCourt(c) && Inv(c, g)
    ensures Inv(c, Run(c, g, events))
    decreases |events|
  {
    if events != [] {
      StepInv(c, g, events[0].0, events[0].1);
      RunInv(c, Step(c, g, events[0].0, events[0].1), events[1..]);
    }
  }

  /** A key press changes the phase only as Space and P do. */
  lemma KeyDownPhases(c: Court, g: Game, e: KeyEvent, env: Env)
    ensures var r := KeyDown(c, g, e, env);
      && (r.phase == Over ==> g.phase == Over)
      && (r.phase == Waiting && g.phase != Waiting ==> IsToggleAi(e))
      && (r.phase == Paused && g.phase != Paused ==> IsSpace(e) && g.phase == Playing)
      && (r.phase == Playing && g.phase != Playing ==> IsSpace(e))
  {
  }

  /** A frame changes the phase only by ending a match in play. */
  lemma FramePhases(c: Court, g: Game, env: Env)
    ensures var r := Frame(c, g, env);
      r.phase == g.phase || (g.phase == Playing && r.phase == Over)
  {
  }

  /** The phase changes one state-machine edge at a time: the match ends only in a frame during
      play, it returns to waiting only on P, and every other change is one of Space's. */
  lemma StepPhaseEdges(c: Court, g: Game, ev: Event, env: Env)
    ensures var r := Step(c, g, ev, env);
      && (r.phase == Over && g.phase != Over ==> ev.AnimationFrame? && g.phase == Playing)
      && (r.phase == Waiting && g.phase != Waiting ==> ev.Press? && IsToggleAi(ev.e))
      && (r.phase == Paused && g.phase != Paused ==> ev.Press? && IsSpace(ev.e) && g.phase == Playing)
      && (r.phase == Playing && g.phase != Playing ==> ev.Press? && IsSpace(ev.e))
  {
    match ev
    case Press(e) => KeyDownPhases(c, g, e, env);
    case Release(k) =>
    case AnimationFrame => FramePhases(c, g, env);
    case MusicTick =>
  }

  /** Within a match scores only go up, by at most one point per event; they fall only when a
      reset (P, or Space after the match is over) sets both to 0 and both heights to 80. */
  lemma ScoresOnlyRise(c: Court, g: Game, ev: Event, env: Env)
    ensures var r := Step(c, g, ev, env);
      && ((r.scoreLeft >= g.scoreLeft && r.scoreRight >= g.scoreRight
           && r.scoreLeft + r.scoreRight <= g.scoreLeft + g.scoreRight + 1)
          || (r.scoreLeft == 0 && r.scoreRight == 0
              && r.left.height == 80 && r.right.height == 80
              && ev.Press? && (IsToggleAi(ev.e) || (IsSpace(ev.e) && g.phase == Over))))
  {
  }
}

=== FILE: music.dfy ===
/** The adaptive background music: an intensity computed from the scores and the ball's speed
    sets the tempo and decides which voices play (bass always, drums, lead and arpeggio at
    rising thresholds); the beat number picks notes from fixed 8-step patterns. The audio
    nodes themselves are outside the model: an update yields the notes and gains it would set. */
module Music {
  import opened Numbers
  import opened Options
  import opened Config

  type NonNegReal = r: real | 0.0 <= r

  /** Whether the music runs, its tempo in beats per minute and the audio-clock time it started. */
  datatype MusicState = MusicState(playing: bool, tempo: real, startTime: real)

  const InitialMusic: MusicState := MusicState(false, 120.0, 0.0)

  /** Bass pattern (A1), one note per beat. */
  const BassNotes: seq<real> := [55.0, 55.0, 82.41, 55.0, 55.0, 82.41, 73.42, 73.42]
  /** Lead melody (A4); 0 is a rest. */
  const LeadNotes: seq<real> := [440.0, 0.0, 523.25, 440.0, 392.0, 0.0, 349.23, 392.0]
  /** High arpeggio, stepped eight times a second. */
  const ArpNotes: seq<real> := [880.0, 1046.5, 1318.5, 1046.5]

  /** 0.3, plus 0.1 per point of score difference, plus 0.3 when either side is one point from
      winning, plus 0.05 per unit of ball speed above the serve speed; capped at 1. */
  function Intensity(scoreLeft: nat, scoreRight: nat, speed: real): (r: real)
    ensures r <= 1.0
    ensures 0.0 <= speed ==> 0.1 <= r
  {
    var base := 0.3 + (AbsInt(scoreLeft - scoreRight) as real) * 0.1;
    var nearWin := if MaxInt(scoreLeft, scoreRight) >= WinningScore - 1 then 0.3 else 0.0;
    Min(1.0, base + nearWin + (speed - BallSpeedInitial) * 0.05)
  }

  function TempoFor(intensity: real): real
  {
    120.0 + intensity * 80.0
  }

  /** The tempo the music settles on lies in [128, 200] beats per minute. */
  lemma TempoBounds(scoreLeft: nat, scoreRight: nat, speed: NonNegReal)
    ensures 128.0 <= TempoFor(Intensity(scoreLeft, scoreRight, speed)) <= 200.0
  {
  }

  /** Intensity does not depend on which side leads, grows with the ball's speed, and, for a
      fixed leading score, grows as the trailing score falls behind. It does not grow with the gap
      alone: the near-win bonus depends on the leader's score, so a 4-4 tie is more intense than
      a 1-0 lead. */
  lemma IntensityMonotone(a: nat, b: nat, b': nat, speed: real, speed': real)
    ensures Intensity(a, b, speed) == Intensity(b, a, speed)
    ensures speed <= speed' ==> Intensity(a, b, speed) <= Intensity(a, b, speed')
    ensures b' <= b <= a ==> Intensity(a, b, speed) <= Intensity(a, b', speed)
  {
  }

  /** The score gap alone does not order intensities. */
  lemma GapAloneIsNotMonotone()
    ensures Intensity(1, 0, 4.0) < Intensity(4, 4, 4.0)
  {
  }

  /** The beat number: whole beats elapsed since the music started at the given tempo. JavaScript
      computes `floor((now - start) / (60 / tempo))`; the product form is the same number. */
  function CurrentBeat(now: real, start: real, tempo: real): (r: int)
    ensures start <= now && 0.0 <= tempo ==> 0 <= r
  {
    ((now - start) * tempo / 60.0).Floor
  }

  /** `notes[i]` in JavaScript, where an index outside the array reads `undefined`. */
  function Lookup(notes: seq<real>, i: int): Option<real>
  {
    if 0 <= i < |notes| then Some(notes[i]) else None
  }

  /** The drum on a beat: a kick on every fourth, a snare two beats later. */
  datatype Drum = NoDrum | Kick | Snare

  /** The lead voice: left as it was, silenced for a rest, or set to a note and gain. */
  datatype Lead = LeadIdle | LeadRest | LeadNote(freq: real, gain: real)

  /** The arpeggio voice: left as it was, or set to a note (possibly `undefined`) and gain. */
  datatype Arp = ArpIdle | ArpNote(freq: Option<real>, gain: real)

  /** What one update sets on the synthesizer. */
  datatype Voices = Voices(bass: Option<real>, bassGain: real, drum: Drum, lead: Lead, arp: Arp)

  /** The drums above intensity 0.4: a kick on every fourth beat, a snare two beats later. */
  function DrumAt(intensity: real, beat: int): (d: Drum)
    ensures d != NoDrum ==> intensity > 0.4 && JsRem(beat, 2) == 0
    ensures intensity > 0.4 && JsRem(beat, 4) == 0 ==> d == Kick
    ensures intensity > 0.4 && JsRem(beat, 4) == 2 ==> d == Snare
  {
    EvenBeats(beat);
    if intensity > 0.4 then
      (if JsRem(beat, 4) == 0 then Kick else if JsRem(beat, 4) == 2 then Snare else NoDrum)
    else NoDrum
  }

  /** A beat whose remainder by 4 is 0 or 2 is even. */
  lemma EvenBeats(beat: int)
    ensures JsRem(beat, 4) == 0 || JsRem(beat, 4) == 2 ==> JsRem(beat, 2) == 0
  {
    var a := if beat >= 0 then beat else -beat;
    EvenOfQuarterEven(a);
    assert JsRem(beat, 4) == (if beat >= 0 then a % 4 else -(a % 4));
    assert JsRem(beat, 2) == (if beat >= 0 then a % 2 else -(a % 2));
  }

  /** A natural number whose remainder by 4 is 0 or 2 is even. */
  lemma EvenOfQuarterEven(a: nat)
    ensures a % 4 == 0 || a % 4 == 2 ==> a % 2 == 0
  {
    var q, r := a / 4, a % 4;
    assert a == 4 * q + r;
    if r == 0 {
      assert a / 2 == 2 * q;
    } else if r == 2 {
      assert a / 2 == 2 * q + 1;
    }
  }

  /** The lead above intensity 0.6: the pattern's note, or a rest on its zeros. */
  function LeadAt(intensity: real, beat: int): (l: Lead)
    ensures l.LeadIdle? <==> intensity <= 0.6
    ensures l.LeadNote? ==> l.freq in LeadNotes && l.freq > 0.0 && l.gain == 0.15 * intensity
  {
    if intensity > 0.6 then
      match Lookup(LeadNotes, JsRem(beat, 8))
      case Some(f) => if f > 0.0 then LeadNote(f, 0.15 * intensity) else LeadRest
      // `undefined > 0` is false in JavaScript, so a missing note rests
      case None => LeadRest
    else LeadIdle
  }

  /** The arpeggio above intensity 0.8, stepped by the clock eight times a second. */
  function ArpAt(intensity: real, now: real): (a: Arp)
    ensures a.ArpNote? <==> intensity > 0.8
    ensures a.ArpNote? ==> a.gain == 0.1 * intensity
    ensures a.ArpNote? && a.freq.Some? ==> a.freq.value in ArpNotes
  {
    if intensity > 0.8 then ArpNote(Lookup(ArpNotes, JsFmod(now * 8.0, 4.0).Floor), 0.1 * intensity)
    else ArpIdle
  }

  /** The notes one update plays at the given intensity, beat and clock. Every note comes from
      its pattern, every gain is proportional to the intensity, and each voice above the bass
      plays exactly when the intensity passes its threshold. */
  function VoicesAt(intensity: real, beat: int, now: real): (v: Voices)
    ensures v.bass.Some? ==> v.bass.value in BassNotes
    ensures 0 <= beat ==> v.bass.Some?
    ensures v.bassGain == 0.3 * intensity
    ensures v.drum != NoDrum ==> intensity > 0.4 && JsRem(beat, 2) == 0
    ensures intensity > 0.4 && JsRem(beat, 4) == 0 ==> v.drum == Kick
    ensures intensity > 0.4 && JsRem(beat, 4) == 2 ==> v.drum == Snare
    ensures !v.lead.LeadIdle? <==> intensity > 0.6
    ensures v.lead.LeadNote? ==> intensity > 0.6 && v.lead.freq in LeadNotes && v.lead.freq > 0.0 && v.lead.gain == 0.15 * intensity
    ensures v.arp.ArpNote? <==> intensity > 0.8
    ensures v.arp.ArpNote? ==> v.arp.gain == 0.1 * intensity
    ensures v.arp.ArpNote? && v.arp.freq.Some? ==> v.arp.freq.value in ArpNotes
  {
    Voices(Lookup(BassNotes, JsRem(beat, 8)), 0.3 * intensity, DrumAt(intensity, beat),
           LeadAt(intensity, beat), ArpAt(intensity, now))
  }

  /** Voices are layered: the arpeggio only plays over the lead, the lead only over the drums. */
  lemma VoicesLayered(intensity: real, beat: int, now: real)
    ensures var v := VoicesAt(intensity, beat, now);
      && (v.arp.ArpNote? ==> !v.lead.LeadIdle?)
      && (!v.lead.LeadIdle? ==> intensity > 0.4)
      && (v.drum != NoDrum ==> intensity > 0.4)
  {
  }

  /** At a non-negative beat and clock every pattern lookup lands inside its array: the bass and
      arpeggio always get a real note, and the lead rests exactly on the pattern's zeros. */
  lemma LookupsInRange(intensity: real, beat: int, now: real)
    requires 0 <= beat && 0.0 <= now
    ensures var v := VoicesAt(intensity, beat, now);
      && v.bass == Some(BassNotes[beat % 8])
      && (v.arp.ArpNote? ==> v.arp.freq.Some?)
      && (intensity > 0.6 ==> (v.lead.LeadRest? <==> LeadNotes[beat % 8] == 0.0))
  {
    FmodOfNonNegative(now * 8.0, 4.0);
  }

  /** A negative beat that is not a multiple of 8 would read outside the bass pattern. */
  lemma NegativeBeatMissesPattern(intensity: real, beat: int, now: real)
    requires beat < 0 && beat % 8 != 0
    ensures VoicesAt(intensity, beat, now).bass == None
  {
  }

  /** The bass, drum and lead patterns repeat every 8 beats. */
  lemma PatternRepeats(intensity: real, beat: int, now: real, now': real)
    requires 0 <= beat
    ensures var v := VoicesAt(intensity, beat, now);
      var w := VoicesAt(intensity, beat + 8, now');
      v.bass == w.bass && v.drum == w.drum && v.lead == w.lead
  {
    assert (beat + 8) % 8 == beat % 8;
    assert (beat + 8) % 4 == beat % 4;
  }

  /** One timer tick of the music. When it is stopped nothing happens; otherwise the tempo is
      re-derived from the game and the voices for the current beat (counted at the old tempo)
      are produced. */
  function MusicUpdate(m: MusicState, now: real, scoreLeft: nat, scoreRight: nat, speed: NonNegReal): (r: (MusicState, Option<Voices>))
    ensures !m.playing ==> r == (m, None)
    ensures r.0.playing == m.playing && r.0.startTime == m.startTime
    ensures m.playing ==> 128.0 <= r.0.tempo <= 200.0 && r.1.Some?
    ensures m.playing && 0.0 <= m.startTime <= now && 0.0 <= m.tempo ==>
      && r.1.Some? && r.1.value.bass.Some?
      && (r.1.value.arp.ArpNote? ==> r.1.value.arp.freq.Some?)
  {
    if !m.playing then (m, None)
    else
      var intensity := Intensity(scoreLeft, scoreRight, speed);
      var beat := CurrentBeat(now, m.startTime, m.tempo);
      TempoBounds(scoreLeft, scoreRight, speed);
      var voices := VoicesAt(intensity, beat, now);
      assert 0.0 <= m.startTime <= now && 0.0 <= m.tempo ==> voices.arp.ArpNote? ==> voices.arp.freq.Some? by {
        if 0.0 <= m.startTime <= now && 0.0 <= m.tempo {
          LookupsInRange(intensity, beat, now);
        }
      }
      (m.(tempo := TempoFor(intensity)), Some(voices))
  }

  /** Starts the music (a no-op when it already plays): records the start time and runs an
      update at once. */
  function MusicStart(m: MusicState, now: real, scoreLeft: nat, scoreRight: nat, speed: NonNegReal): (r: MusicState)
    ensures r.playing
    ensures m.playing ==> r == m
    ensures !m.playing ==> r.startTime == now && 128.0 <= r.tempo <= 200.0
  {
    if m.playing then m
    else MusicUpdate(m.(playing := true, startTime := now), now, scoreLeft, scoreRight, speed).0
  }

  /** Stops the music (the fade-out is audio scheduling, outside the model). */
  function MusicStop(m: MusicState): MusicState
  {
    m.(playing := false)
  }

  /** Stopping and starting again restarts the beat count: the music plays from the new start
      time at a tempo re-derived from the game, whatever it was doing before. */
  lemma StopThenStart(m: MusicState, now: real, scoreLeft: nat, scoreRight: nat, speed: NonNegReal)
    ensures var r := MusicStart(MusicStop(m), now, scoreLeft, scoreRight, speed);
      && r.playing && r.startTime == now
      && r.tempo == TempoFor(Intensity(scoreLeft, scoreRight, speed))
      && 128.0 <= r.tempo <= 200.0
  {
  }
}

=== FILE: numbers.dfy ===
/** Arithmetic helpers shared by the game rules: minimum, maximum and absolute value, and the
    JavaScript remainder operators, whose sign follows the dividend (unlike Dafny's `%`). */
module Numbers {

  function Min(a: real, b: real): real { if a <= b then a else b }

  function Max(a: real, b: real): real { if a >= b then a else b }

  function Abs(x: real): real { if x < 0.0 then -x else x }

  /** Distance between two points on the vertical axis. */
  function Dist(a: real, b: real): real { Abs(a - b) }

  function MinInt(a: int, b: int): int { if a <= b then a else b }

  function MaxInt(a: int, b: int): int { if a >= b then a else b }

  function AbsInt(x: int): nat { if x < 0 then -x else x }

  /** JavaScript's `a % n` on integers: truncating division, so the remainder
      has the sign of `a`. */
  function JsRem(a: int, n: int): (r: int)
    requires n > 0
    ensures -n < r < n
    ensures 0 <= a ==> 0 <= r
    ensures a <= 0 ==> r <= 0
    ensures a == n * (if a >= 0 then a / n else -((-a) / n)) + r
  {
    if a >= 0 then a % n else -((-a) % n)
  }

  /** Truncation toward zero. */
  function Trunc(x: real): int
  {
    if x >= 0.0 then x.Floor else -((-x).Floor)
  }

  /** JavaScript's `x % n` on numbers (fmod): `x - n * trunc(x / n)`. */
  function JsFmod(x: real, n: real): real
    requires n > 0.0
  {
    x - n * (Trunc(x / n) as real)
  }

  /** On a non-negative dividend the JavaScript remainder lies in [0, n). */
  lemma FmodOfNonNegative(x: real, n: real)
    requires 0.0 <= x && 0.0 < n
    ensures 0.0 <= JsFmod(x, n) < n
  {
    var q := x / n;
    var k := q.Floor;
    var f := q - k as real;
    assert JsFmod(x, n) == n * f by {
      assert Trunc(q) == k;
      assert x == n * q;
      calc {
        JsFmod(x, n);
        x - n * (k as real);
        n * q - n * (k as real);
        { assert n * q - n * (k as real) == n * (q - k as real); }
        n * f;
      }
    }
    assert 0.0 <= f < 1.0;
    MulBelow(n, f);
  }

  /** Scaling a fraction in [0, 1) by a positive n stays in [0, n). */
  lemma MulBelow(n: real, f: real)
    requires 0.0 < n && 0.0 <= f < 1.0
    ensures 0.0 <= n * f < n
  {
    assert n - n * f == n * (1.0 - f);
  }
}

=== FILE: options.dfy ===
/** An optional value, used where the game reads a JavaScript array slot that may be `undefined`. */
module Options {

  datatype Option<+T> = None | Some(value: T)
}

=== FILE: paddles.dfy ===
/** Paddles: the movement clamp that keeps a paddle on the canvas, and the adaptive sizing
    applied after every point (the loser's paddle shrinks, the winner's grows). */
module Paddles {
  import opened Numbers
  import opened Config

  /** Paddle heights are whole pixels and never reach zero. */
  type Height = h: int | 0 < h witness 80

  datatype Side = Left | Right

  /** A paddle's top-left corner `(x, y)`, its last vertical step `dy` and its height. */
  datatype Paddle = Paddle(x: real, y: real, dy: real, height: Height)

  /** The largest `y` at which a paddle of the given height still fits on the canvas. */
  function MaxY(c: Court, height: int): real
  {
    (c.height - height) as real
  }

  predicate InCourt(c: Court, p: Paddle)
  {
    0.0 <= p.y <= MaxY(c, p.height)
  }

  predicate HeightInRange(h: int)
  {
    PaddleMinHeight <= h <= PaddleMaxHeight
  }

  /** `max(0, min(H - height, y))`, the clamp every paddle move ends with. */
  function ClampY(c: Court, height: Height, y: real): (r: real)
    ensures height <= c.height ==> 0.0 <= r <= MaxY(c, height)
    ensures 0.0 <= y <= MaxY(c, height) ==> r == y
  {
    Max(0.0, Min(MaxY(c, height), y))
  }

  /** The clamp picks the position inside the court that is nearest to the requested one. */
  lemma ClampIsNearest(c: Court, height: Height, y: real, z: real)
    requires height <= c.height
    requires 0.0 <= z <= MaxY(c, height)
    ensures Dist(ClampY(c, height, y), y) <= Dist(z, y)
  {
  }

  /** One step of a paddle: record the velocity, add it and clamp. */
  function Move(c: Court, p: Paddle, dy: real): (r: Paddle)
    ensures r.x == p.x && r.height == p.height && r.dy == dy
    ensures p.height <= c.height ==> InCourt(c, r)
    ensures 0.0 <= p.y + dy <= MaxY(c, p.height) ==> r.y == p.y + dy
  {
    p.(dy := dy, y := ClampY(c, p.height, p.y + dy))
  }

  /** The paddle of the side that lost a point: 10 pixels shorter, but never below 30,
      and pulled up if its bottom edge would leave the canvas. */
  function Shrink(c: Court, p: Paddle): (r: Paddle)
    ensures r.height == MaxInt(PaddleMinHeight, p.height - PaddleSizeChange)
    ensures PaddleMinHeight <= p.height ==> r.height <= p.height
    ensures r.x == p.x && r.dy == p.dy
    ensures PaddleMinHeight <= p.height && InCourt(c, p) ==> InCourt(c, r) && r.y == p.y
  {
    var h: Height := MaxInt(PaddleMinHeight, p.height - PaddleSizeChange);
    p.(height := h, y := Min(p.y, MaxY(c, h)))
  }

  /** The paddle of the side that won a point: 10 pixels taller, but never above 150,
      re-centred on the centre it had before growing by 10 and clamped to the canvas. */
  function Grow(c: Court, p: Paddle): (r: Paddle)
    ensures r.height == MinInt(PaddleMaxHeight, p.height + PaddleSizeChange)
    ensures r.height >= MinInt(PaddleMaxHeight, p.height)
    ensures r.x == p.x && r.dy == p.dy
    ensures r.height <= c.height ==> InCourt(c, r)
  {
    var h: Height := MinInt(PaddleMaxHeight, p.height + PaddleSizeChange);
    var centerY := p.y + ((h - PaddleSizeChange) as real) / 2.0;
    p.(height := h, y := ClampY(c, h, centerY - (h as real) / 2.0))
  }

  /** The winner's new position is its old one raised by half the nominal growth (5 pixels),
      whether or not the paddle actually grew. */
  lemma GrowRaisesByFive(c: Court, p: Paddle)
    ensures Grow(c, p).y == ClampY(c, Grow(c, p).height, p.y - 5.0)
  {
  }

  /** When the raised paddle still fits, the winner keeps its centre exactly when it grew by the
      full 10 pixels; a paddle already at the 150 cap is moved up by 5 pixels instead. */
  lemma GrowKeepsCentre(c: Court, p: Paddle)
    requires 0.0 <= p.y - 5.0 <= MaxY(c, Grow(c, p).height)
    ensures var r := Grow(c, p);
      (r.y + (r.height as real) / 2.0 == p.y + (p.height as real) / 2.0) <==> p.height + PaddleSizeChange <= PaddleMaxHeight
  {
    GrowRaisesByFive(c, p);
  }

  /** The paddles after a point lost by `loser`: the loser shrinks and the winner grows. */
  function AdjustPaddles(c: Court, left: Paddle, right: Paddle, loser: Side): (r: (Paddle, Paddle))
    ensures r.0.x == left.x && r.0.dy == left.dy && r.1.x == right.x && r.1.dy == right.dy
    ensures loser == Left ==> r.0.height <= MaxInt(PaddleMinHeight, left.height) && r.1.height >= MinInt(PaddleMaxHeight, right.height)
    ensures loser == Right ==> r.1.height <= MaxInt(PaddleMinHeight, right.height) && r.0.height >= MinInt(PaddleMaxHeight, left.height)
    ensures loser == Left && PaddleMinHeight <= left.height && InCourt(c, left) ==> r.0.y == left.y
    ensures loser == Right && PaddleMinHeight <= right.height && InCourt(c, right) ==> r.1.y == right.y
  {
    match loser
    case Left => (Shrink(c, left), Grow(c, right))
    case Right => (Grow(c, left), Shrink(c, right))
  }

  /** The size rule as the game states it: the loser's height becomes max(30, h - 10), the
      winner's min(150, h + 10); with both paddles on a court at least 150 tall beforehand,
      both are on it afterwards, heights stay in [30, 150] and stay multiples of 10. */
  lemma AdjustPaddlesSound(c: Court, left: Paddle, right: Paddle, loser: Side)
    ensures var r := AdjustPaddles(c, left, right, loser);
      && (loser == Left ==> r.0.height == MaxInt(30, left.height - 10) && r.1.height == MinInt(150, right.height + 10))
      && (loser == Right ==> r.0.height == MinInt(150, left.height + 10) && r.1.height == MaxInt(30, right.height - 10))
    ensures var r := AdjustPaddles(c, left, right, loser);
      && ValidCourt(c) && HeightInRange(left.height) && HeightInRange(right.height)
      && InCourt(c, left) && InCourt(c, right)
      ==> InCourt(c, r.0) && InCourt(c, r.1)
    ensures var r := AdjustPaddles(c, left, right, loser);
      HeightInRange(left.height) && HeightInRange(right.height) ==> HeightInRange(r.0.height) && HeightInRange(r.1.height)
    ensures var r := AdjustPaddles(c, left, right, loser);
      left.height % 10 == 0 && right.height % 10 == 0 ==> r.0.height % 10 == 0 && r.1.height % 10 == 0
  {
  }

  /** The paddles after a run of points, `losers[i]` being the side that lost the i-th. */
  function AdjustMany(c: Court, left: Paddle, right: Paddle, losers: seq<Side>): (Paddle, Paddle)
    decreases |losers|
  {
    if losers == [] then (left, right)
    else
      var r := AdjustPaddles(c, left, right, losers[0]);
      AdjustMany(c, r.0, r.1, losers[1..])
  }

  /** Starting with heights in [30, 150] and both paddles on a court at least 150 tall, any
      number of points keeps the heights in [30, 150] and both paddles on the court. */
  lemma {:induction false} HeightsStayInRange(c: Court, left: Paddle, right: Paddle, losers: seq<Side>)
    requires ValidCourt(c)
    requires HeightInRange(left.height) && HeightInRange(right.height)
    requires InCourt(c, left) && InCourt(c, right)
    ensures var r := AdjustMany(c, left, right, losers);
      HeightInRange(r.0.height) && HeightInRange(r.1.height) && InCourt(c, r.0) && InCourt(c, r.1)
    decreases |losers|
  {
    if losers != [] {
      var r := AdjustPaddles(c, left, right, losers[0]);
      AdjustPaddlesSound(c, left, right, losers[0]);
      HeightsStayInRange(c, r.0, r.1, losers[1..]);
    }
  }
}

=== FILE: rules.dfy ===
/** The game's state and the rules of one animation frame: paddle movement, ball motion,
    scoring, the adaptive paddle sizes, the win check and the resets. */
module Rules {
  import opened Numbers
  import opened Config
  import opened Paddles
  import opened Balls
  import opened Ai
  import opened Music

  datatype Phase = Waiting | Playing | Paused | Over

  /** Everything the rules read and write. `held` is the set of keys currently held down;
      `aiTimer` counts frames toward the computer's next re-evaluation. */
  datatype Game = Game(
    phase: Phase,
    scoreLeft: nat,
    scoreRight: nat,
    left: Paddle,
    right: Paddle,
    ball: Ball,
    aiEnabled: bool,
    difficulty: Difficulty,
    aiTimer: nat,
    held: set<string>,
    music: MusicState)

  /** What a step reads from outside the game: the audio clock, the ball's speed (the square
      root of dx * dx + dy * dy) and three uniform random draws in [0, 1): the serve's side and
      spin and the computer's aiming error. */
  datatype Env = Env(now: real, speed: NonNegReal, serveCoin: real, serveSpin: real, aiJitter: real)

  /** The `y` that centres a paddle of the initial height vertically. */
  function CentredY(c: Court): real
  {
    (c.height as real) / 2.0 - (PaddleHeightInitial as real) / 2.0
  }

  /** The game when the page loads: waiting, against the computer on medium. */
  function Initial(c: Court): (g: Game)
    ensures g.phase == Waiting && g.scoreLeft == 0 && g.scoreRight == 0
    ensures g.aiEnabled && g.difficulty == Medium && g.held == {} && !g.music.playing
    ensures g.left.height == PaddleHeightInitial && g.right.height == PaddleHeightInitial
    ensures g.left.y + (g.left.height as real) / 2.0 == (c.height as real) / 2.0
    ensures g.right.y + (g.right.height as real) / 2.0 == (c.height as real) / 2.0
    ensures g.ball.x == (c.width as real) / 2.0 && g.ball.y == (c.height as real) / 2.0 && g.ball.trail == []
    ensures ValidCourt(c) ==> InCourt(c, g.left) && InCourt(c, g.right)
  {
    Game(Waiting, 0, 0,
         Paddle(LeftPaddleX, CentredY(c), 0.0, 80),
         Paddle(RightPaddleX(c), CentredY(c), 0.0, 80),
         Ball((c.width as real) / 2.0, (c.height as real) / 2.0, BallSpeedInitial, BallSpeedInitial, []),
         true, Medium, 0, {}, InitialMusic)
  }

  /** A new match: scores to 0, a fresh serve, both paddles back to height 80 and centred,
      music stopped. The phase, mode, difficulty and held keys are kept. */
  function ResetGame(c: Court, g: Game, env: Env): (r: Game)
    ensures r.scoreLeft == 0 && r.scoreRight == 0
    ensures r.left.height == PaddleHeightInitial && r.right.height == PaddleHeightInitial
    ensures r.left.y + (r.left.height as real) / 2.0 == (c.height as real) / 2.0
    ensures r.right.y + (r.right.height as real) / 2.0 == (c.height as real) / 2.0
    ensures r.left.x == g.left.x && r.right.x == g.right.x
    ensures !r.music.playing && r.ball == ResetBall(c, env.serveCoin, env.serveSpin)
    ensures r.phase == g.phase && r.aiEnabled == g.aiEnabled && r.difficulty == g.difficulty
    ensures r.held == g.held && r.aiTimer == g.aiTimer
    ensures ValidCourt(c) ==> InCourt(c, r.left) && InCourt(c, r.right)
  {
    g.(scoreLeft := 0, scoreRight := 0,
       ball := ResetBall(c, env.serveCoin, env.serveSpin),
       left := g.left.(height := 80, y := CentredY(c)),
       right := g.right.(height := 80, y := CentredY(c)),
       music := MusicStop(g.music))
  }

  /** The win check after a point: a side with 5 points ends the match and stops the music;
      otherwise nothing changes. */
  function CheckWin(g: Game): (r: Game)
    ensures r.phase == Over <==> g.phase == Over || g.scoreLeft >= WinningScore || g.scoreRight >= WinningScore
    ensures (g.scoreLeft >= WinningScore || g.scoreRight >= WinningScore) ==> !r.music.playing
    ensures r.phase != Over ==> r == g
    ensures r == g.(phase := r.phase, music := r.music)
  {
    if g.scoreLeft >= WinningScore || g.scoreRight >= WinningScore then
      g.(phase := Over, music := MusicStop(g.music))
    else
      g
  }

  /** The point lost by `loser`: the other side scores, the loser's paddle shrinks and the
      winner's grows, the ball is served again from the centre and the win is checked. */
  function PointScored(c: Court, g: Game, loser: Side, env: Env): (r: Game)
    ensures loser == Left ==> r.scoreRight == g.scoreRight + 1 && r.scoreLeft == g.scoreLeft
    ensures loser == Right ==> r.scoreLeft == g.scoreLeft + 1 && r.scoreRight == g.scoreRight
    ensures loser == Left ==>
      r.left.height == MaxInt(PaddleMinHeight, g.left.height - PaddleSizeChange) &&
      r.right.height == MinInt(PaddleMaxHeight, g.right.height + PaddleSizeChange)
    ensures loser == Right ==>
      r.right.height == MaxInt(PaddleMinHeight, g.right.height - PaddleSizeChange) &&
      r.left.height == MinInt(PaddleMaxHeight, g.left.height + PaddleSizeChange)
    ensures r.ball.x == (c.width as real) / 2.0 && r.ball.y == (c.height as real) / 2.0 && r.ball.trail == []
    ensures r.phase == Over <==> g.phase == Over || r.scoreLeft >= WinningScore || r.scoreRight >= WinningScore
    ensures r.phase != Over ==> r.phase == g.phase && r.music == g.music
    ensures r.phase == Over && g.phase != Over ==> !r.music.playing
    ensures r.left.x == g.left.x && r.right.x == g.right.x
    ensures r.aiEnabled == g.aiEnabled && r.difficulty == g.difficulty && r.aiTimer == g.aiTimer && r.held == g.held
  {
    var scored :=
      if loser == Left then g.(scoreRight := g.scoreRight + 1) else g.(scoreLeft := g.scoreLeft + 1);
    var paddles := AdjustPaddles(c, g.left, g.right, loser);
    CheckWin(scored.(left := paddles.0, right := paddles.1, ball := ResetBall(c, env.serveCoin, env.serveSpin)))
  }

  /** The vertical step a player's keys ask for: up wins over down. */
  function KeyVelocity(up: bool, down: bool): real
  {
    if up then -PaddleSpeed else if down then PaddleSpeed else 0.0
  }

  /** The paddles' frame: the left paddle follows W/S; the right one follows the arrow keys in
      two-player mode and the computer otherwise. Every move ends clamped to the canvas. */
  function UpdatePaddles(c: Court, g: Game, env: Env): (r: Game)
    ensures r == g.(left := r.left, right := r.right, aiTimer := r.aiTimer)
    ensures r.left.x == g.left.x && r.left.height == g.left.height
    ensures r.right.x == g.right.x && r.right.height == g.right.height
    ensures !g.aiEnabled ==> r.aiTimer == g.aiTimer
    ensures g.left.height <= c.height ==> InCourt(c, r.left)
    ensures g.right.height <= c.height && (!g.aiEnabled || InCourt(c, g.right)) ==> InCourt(c, r.right)
    ensures InCourt(c, g.left) ==> Abs(r.left.y - g.left.y) <= PaddleSpeed
    ensures !g.aiEnabled && InCourt(c, g.right) ==> Abs(r.right.y - g.right.y) <= PaddleSpeed
    ensures ("w" in g.held || "W" in g.held) && PaddleSpeed <= g.left.y <= MaxY(c, g.left.height) + PaddleSpeed ==>
      r.left.y == g.left.y - PaddleSpeed
    ensures "w" !in g.held && "W" !in g.held && ("s" in g.held || "S" in g.held) && 0.0 <= g.left.y <= MaxY(c, g.left.height) - PaddleSpeed ==>
      r.left.y == g.left.y + PaddleSpeed
    ensures "w" !in g.held && "W" !in g.held && "s" !in g.held && "S" !in g.held && InCourt(c, g.left) ==> r.left.y == g.left.y
    ensures !g.aiEnabled && "ArrowUp" in g.held && PaddleSpeed <= g.right.y <= MaxY(c, g.right.height) + PaddleSpeed ==>
      r.right.y == g.right.y - PaddleSpeed
    ensures !g.aiEnabled && "ArrowUp" !in g.held && "ArrowDown" in g.held && 0.0 <= g.right.y <= MaxY(c, g.right.height) - PaddleSpeed ==>
      r.right.y == g.right.y + PaddleSpeed
    ensures !g.aiEnabled && "ArrowUp" !in g.held && "ArrowDown" !in g.held && InCourt(c, g.right) ==> r.right.y == g.right.y
  {
    var left := Move(c, g.left, KeyVelocity("w" in g.held || "W" in g.held, "s" in g.held || "S" in g.held));
    if g.aiEnabled then
      var ai := UpdateAi(c, g.aiTimer, Settings(g.difficulty), g.right, g.ball, env.aiJitter);
      g.(left := left, aiTimer := ai.0, right := ai.1)
    else
      g.(left := left, right := Move(c, g.right, KeyVelocity("ArrowUp" in g.held, "ArrowDown" in g.held)))
  }

  /** The ball after its frame's motion, wall bounce and paddle hits (left paddle first). */
  function MovedBall(c: Court, g: Game): (b: Ball)
    ensures b.trail == g.ball.trail
    ensures b.x == g.ball.x + g.ball.dx && b.y == g.ball.y + g.ball.dy
    ensures Abs(b.dy) == Abs(g.ball.dy) || b.dx != g.ball.dx
    ensures b.dx == g.ball.dx || Abs(b.dx) == 1.05 * Abs(g.ball.dx) || Abs(b.dx) == 1.05 * 1.05 * Abs(g.ball.dx)
  {
    HitRight(HitLeft(WallBounce(c, Advance(g.ball)), g.left), g.right)
  }

  /** The ball's frame: move, bounce and hit, then award a point if it has left the canvas on
      the left (checked first) or on the right. */
  function UpdateBall(c: Court, g: Game, env: Env): (r: Game)
    ensures r.scoreLeft >= g.scoreLeft && r.scoreRight >= g.scoreRight
    ensures r.scoreLeft + r.scoreRight <= g.scoreLeft + g.scoreRight + 1
    ensures r.phase == g.phase || r.phase == Over
    ensures r.scoreLeft + r.scoreRight == g.scoreLeft + g.scoreRight ==> r == g.(ball := MovedBall(c, g))
    ensures r.aiEnabled == g.aiEnabled && r.difficulty == g.difficulty && r.held == g.held && r.aiTimer == g.aiTimer
  {
    var g1 := g.(ball := MovedBall(c, g));
    var g2 := if g1.ball.x < 0.0 then PointScored(c, g1, Left, env) else g1;
    if g2.ball.x > c.width as real then PointScored(c, g2, Right, env) else g2
  }

  /** Leaving past the left edge scores for the right side only, shrinks the left paddle, grows
      the right one and re-centres the ball; leaving past the right edge is the mirror image;
      a ball that stays on the canvas scores nothing. At most one point is scored per frame. */
  lemma BallLeavingCourt(c: Court, g: Game, env: Env)
    ensures var r := UpdateBall(c, g, env);
      var b := MovedBall(c, g);
      && (b.x < 0.0 ==>
            && r.scoreRight == g.scoreRight + 1 && r.scoreLeft == g.scoreLeft
            && r.left.height == MaxInt(PaddleMinHeight, g.left.height - PaddleSizeChange)
            && r.right.height == MinInt(PaddleMaxHeight, g.right.height + PaddleSizeChange)
            && r.ball.x == (c.width as real) / 2.0 && r.ball.y == (c.height as real) / 2.0)
      && (b.x > c.width as real ==>
            && r.scoreLeft == g.scoreLeft + 1 && r.scoreRight == g.scoreRight
            && r.right.height == MaxInt(PaddleMinHeight, g.right.height - PaddleSizeChange)
            && r.left.height == MinInt(PaddleMaxHeight, g.left.height + PaddleSizeChange)
            && r.ball.x == (c.width as real) / 2.0 && r.ball.y == (c.height as real) / 2.0)
      && (0.0 <= b.x <= c.width as real ==> r == g.(ball := b))
  {
  }

  /** One animation frame: the paddles and the ball move only while playing; in every phase the
      ball's current position is then recorded in its trail. */
  function Frame(c: Court, g: Game, env: Env): (r: Game)
    ensures g.phase != Playing ==> r == g.(ball := g.ball.(trail := r.ball.trail))
    ensures g.phase != Playing && |g.ball.trail| <= TrailLength ==>
      r.ball.trail == Window(g.ball.trail + [Point(g.ball.x, g.ball.y)])
    ensures g.phase == Playing && r.scoreLeft == g.scoreLeft && r.scoreRight == g.scoreRight ==>
      r.ball.x == g.ball.x + g.ball.dx && r.ball.y == g.ball.y + g.ball.dy
    ensures (g.phase == Playing && r.scoreLeft == g.scoreLeft && r.scoreRight == g.scoreRight
             && |g.ball.trail| <= TrailLength) ==>
      r.ball.trail == Window(g.ball.trail + [Point(r.ball.x, r.ball.y)])
    ensures g.phase == Playing && g.ball.x + g.ball.dx < 0.0 ==>
      r.scoreRight == g.scoreRight + 1 && r.scoreLeft == g.scoreLeft
    ensures g.phase == Playing && g.ball.x + g.ball.dx > c.width as real ==>
      r.scoreLeft == g.scoreLeft + 1 && r.scoreRight == g.scoreRight
    ensures |g.ball.trail| <= TrailLength ==> |r.ball.trail| <= TrailLength
    ensures |r.ball.trail| > 0 && r.ball.trail[|r.ball.trail| - 1] == Point(r.ball.x, r.ball.y)
  {
    var g1 := if g.phase == Playing then UpdateBall(c, UpdatePaddles(c, g, env), env) else g;
    g1.(ball := g1.ball.(trail := PushTrail(g1.ball.trail, Point(g1.ball.x, g1.ball.y))))
  }
}
